=== FILE: README.md ===
# UCT memory-domain layer, modelled in Dafny

This project models the glue layer of UCT's memory domains (`src/uct/base/uct_md.c`). The layer
sits between callers and the per-fabric drivers. It:

- discovers the transport resources of an opened memory domain (MD);
- finds the transport an interface is opened on;
- reads and releases configuration bundles;
- checks arguments of memory operations before dispatching them to the driver;
- frames remote keys (rkeys) with the packing component's name in debug-data builds.

Every driver entry point (`component->md_open`, `md->ops->...`, `tlc->query_resources`,
`component->rkey_unpack`, `tlc->iface_open`) and the options parser is modelled as a
function-typed parameter or record field. The model takes their results as given.
Allocation outcomes (`ucs_calloc`, `ucs_realloc`, `ucs_strdup`, `ucs_malloc`) are boolean
oracles. The build flags `ENABLE_DEBUG_DATA` and `ENABLE_PARAMS_CHECK` are the fields of
`BuildConfig`.

Files:

- `ucs_status.dfy`: status codes, `Result`, `Option`, the pointer-plus-count `Listing`,
  bytes and wrapping `size_t` addition.
- `uct_types.dfy`: components, transports, MDs with their operation table, MD attributes,
  resources, and C-string reading of fixed-width fields.
- `transport_lookup.dfy`: `uct_find_tl_on_md`.
- `resource_discovery.dfy`: `uct_md_query_tl_resources` and the two stock MD-resource
  enumerators.
- `config_bundle.dfy`: `uct_config_read`, `uct_config_release`, `uct_config_get` and
  `uct_config_modify`. The hidden header before the data becomes the explicit record
  `Bundle{table, tablePrefix, data}`.
- `memory_domain.dfy`: `uct_md_open`, `uct_md_query` and the memory operations.
- `iface_setup.dfy`: `uct_md_config_read`, `uct_md_iface_config_read`, and `uct_iface_open` up
  to the transport's own open.
- `rkey.dfy`: `uct_md_mkey_pack`, `uct_rkey_unpack` and `strncmp` semantics.

The flag constants are `UCT_MD_FLAG_SOCKADDR`, `UCT_MD_MEM_ACCESS_*`, `UCT_IFACE_OPEN_MODE_*`
and `UCT_IFACE_PARAM_FIELD_OPEN_MODE`. The name widths are `UCT_MD_COMPONENT_NAME_MAX` = 8
and `UCT_MD_NAME_MAX` = 16. All of these are defined in `uct.h`, which is not part of this
model. Their values here follow the UCX API header of the same era. The flag values play no
part in any proof. The name widths do: `QuerySingleMdResource` relies on
`UCT_MD_COMPONENT_NAME_MAX < UCT_MD_NAME_MAX` (see "## Left out").

Two behaviours of the code are easy to misread:

- With no transport name, `uct_find_tl_on_md` tests the MD's capability flags
  (`src/uct/base/uct_md.c:225`), not the transport's. So the lookup yields the first registered
  transport when the MD has `UCT_MD_FLAG_SOCKADDR`, and NULL otherwise (`FindTlWithoutName`).
- `uct_iface_open` with an open mode that is neither device nor sockaddr returns the
  variable `status`. That variable still holds `UCS_OK` from the MD query, so the call
  reports success without opening an interface (`OkWithoutIface`, `UnknownOpenModeReportsOk`).

## Model

| member | source | states |
|---|---|---|
| `TransportLookup.FindTl` | src/uct/base/uct_md.c:217-230 | The result is NULL exactly when no registered transport passes the test. Otherwise it is a registered transport that passes the test, and no earlier entry passes it. |
| `TransportLookup.FindTlByName` | src/uct/base/uct_md.c:223-229 | With a name, the MD flags play no part. The result carries that name, and it is NULL exactly when no registered transport has the name. |
| `TransportLookup.FindTlWithoutName` | src/uct/base/uct_md.c:223-229 | With no name, the result is the first registered transport when the MD flags contain `UCT_MD_FLAG_SOCKADDR`, and NULL otherwise (also NULL for an empty list). |
| `TransportLookup.FindTlReturnsRegistered` | src/uct/base/uct_md.c:217-230 | Any transport the lookup returns is an element of the component's own `tl_list`. |
| `ResourceDiscovery.QueryTlResources` | src/uct/base/uct_md.c:80-135 | Discovery fails exactly when buffer growth fails at a transport that returned OK with a nonzero count, and then reports `UCS_ERR_NO_MEMORY`. On success the list is NULL exactly when the count is 0. The count is the list length. The list is the in-order concatenation of every transport's successful results. |
| `ResourceDiscovery.SkippedTransportContributesNothing` | src/uct/base/uct_md.c:97-107 | A transport whose query fails or returns zero resources can be removed from the list without changing the discovered resources. |
| `ResourceDiscovery.AggregateMembership` | src/uct/base/uct_md.c:94-126 | A resource is discovered if and only if some registered transport returned it from a successful query. |
| `ResourceDiscovery.DiscoveredResourcesNameRegisteredTransports` | src/uct/base/uct_md.c:118-120 | Given the asserted driver invariant, every discovered resource's transport name is the name of a transport registered under the MD's component. |
| `ResourceDiscovery.DiscoveryScenario` | src/uct/base/uct_md.c:94-126 | Transport 1 returns two resources, transport 2 fails, transport 3 returns none. The result is exactly transport 1's two resources, and growth is only attempted for transport 1. |
| `ResourceDiscovery.QuerySingleMdResource` | src/uct/base/uct_md.c:142-160 | A failed malloc gives `UCS_ERR_NO_MEMORY`. Otherwise the result is exactly one resource, whose `UCT_MD_NAME_MAX`-wide name field reads as the component's name. |
| `ResourceDiscovery.QueryEmptyMdResource` | src/uct/base/uct_md.c:162-169 | Always OK, with a NULL list and a zero count. |
| `ConfigBundle.ConfigReadAsWritten` | src/uct/base/uct_md.c:180-215 | The read as written. It fails exactly when the calloc, the fill or the strdup fails. |
| `ConfigBundle.ConfigReadAsWrittenLeaks` | src/uct/base/uct_md.c:201-206 | Counterexample: the fill allocates one option value and the strdup fails. The read reports failure but leaves one block allocated. |
| `ConfigBundle.ConfigRead` | src/uct/base/uct_md.c:180-215 | Corrected read. A failed calloc or strdup gives `UCS_ERR_NO_MEMORY`, and a failed fill gives the parser's status. No failure hands out a bundle or leaves anything allocated. On success the bundle holds the given table, a copy of `cfg_prefix`, and the parser's filled data. |
| `ConfigBundle.ConfigReadFixOnlyChangesLeak` | src/uct/base/uct_md.c:180-215 | The corrected and as-written reads return the same status and bundle on every input. On success they leave the same blocks allocated. |
| `ConfigBundle.ConfigRelease` | src/uct/base/uct_md.c:326-333 | Release runs `release_opts` on the stored data with the stored table, then frees the stored prefix, then the block, and nothing else. In total it frees the parser's blocks plus two. |
| `ConfigBundle.ConfigGet` | src/uct/base/uct_md.c:335-341 | `uct_config_get` asks the parser for the option in the bundle's own data, through the bundle's own table. `BundleKeepsSchema` states that after a read this is the filled data and the table it was read with. |
| `ConfigBundle.ReadThenReleaseBalances` | src/uct/base/uct_md.c:188-208 | Releasing a bundle frees exactly as many blocks as the successful read left allocated, through the table the bundle was read with. |
| `ConfigBundle.ConfigModify` | src/uct/base/uct_md.c:343-347 | Modify returns the parser's status. The bundle keeps its table and prefix, and its data is what the parser set. |
| `ConfigBundle.BundleKeepsSchema` | src/uct/base/uct_md.c:335-347 | `uct_config_get` hands the bundle's own data and table to the parser. After a read, get consults the filled data through the table it was read with. A modified bundle is still released through that table and prefix. |
| `MemoryDomain.MdOpen` | src/uct/base/uct_md.c:59-73 | The driver's status is passed back unchanged. An opened MD records the opening component. |
| `MemoryDomain.MdQuery` | src/uct/base/uct_md.c:390-408 | A driver failure is returned unchanged. On success, `component_name` is the MD's component name and the flags are the driver's. `rkey_packed_size` is the driver's value plus `UCT_MD_COMPONENT_NAME_MAX` in debug-data builds (wrapping modulo 2^64 on `size_t` overflow), and the driver's value otherwise. |
| `MemoryDomain.MemCheckFlags` | src/uct/base/uct_md.c:410-416 | OK if and only if the flags request remote put, get or atomic access. Otherwise `UCS_ERR_INVALID_PARAM`. |
| `MemoryDomain.MemAlloc` | src/uct/base/uct_md.c:418-429 | Flags without an access bit give `UCS_ERR_INVALID_PARAM` before the driver is asked. Otherwise the driver, given the requested length and the caller's address hint, decides the result. |
| `MemoryDomain.MemAdvise` | src/uct/base/uct_md.c:436-445 | A zero length or NULL address gives `UCS_ERR_INVALID_PARAM`. Otherwise the driver's status is returned. |
| `MemoryDomain.MemReg` | src/uct/base/uct_md.c:447-462 | A zero length, a NULL address, or flags without an access bit give `UCS_ERR_INVALID_PARAM`. Otherwise the driver's result is returned. |
| `MemoryDomain.AdviseAndRegRejectSameRanges` | src/uct/base/uct_md.c:436-462 | For drivers that accept both requests, advise rejects a range if and only if registration (with valid flags) rejects it, and if and only if the length is 0 or the address is NULL. |
| `MemoryDomain.MemRegRejectionIsDriverIndependent` | src/uct/base/uct_md.c:447-462 | For a rejected request, two MDs with different drivers return the same result. |
| `MemoryDomain.IsHugetlb` | src/uct/base/uct_md.c:481-487 | Returns 0 when the driver has no `is_hugetlb`, and the driver's answer otherwise. |
| `IfaceSetup.MdConfigRead` | src/uct/base/uct_md.c:306-324 | The read with the component's MD table, size and prefix. A failed calloc or strdup gives `UCS_ERR_NO_MEMORY` and a failed fill the parser's status; otherwise it succeeds. The status and bundle equal those of the read as written. A bundle holds the MD table, the prefix and the filled data, and release frees what the read allocated. |
| `IfaceSetup.IfaceConfigRead` | src/uct/base/uct_md.c:232-268 | An MD query failure passes through, and a failed lookup gives `UCS_ERR_NO_DEVICE`. With a transport found, the read with its table, size and prefix fails exactly when a step fails, with that step's status, and its status and bundle equal those of the read as written. A bundle holds the transport's table, prefix and filled data, the transport is registered, and release frees what the read allocated. |
| `IfaceSetup.IfaceOpen` | src/uct/base/uct_md.c:270-304 | An MD query failure passes through. With parameter checks, a missing open-mode field gives `UCS_ERR_INVALID_PARAM`. An unknown mode gives OK without an interface. A failed lookup gives `UCS_ERR_NO_DEVICE`. Otherwise the selected transport's open result is returned, so any opened interface comes from a registered transport. |
| `IfaceSetup.UnknownOpenModeReportsOk` | src/uct/base/uct_md.c:285-296 | With the open-mode field present when parameters are checked, an open mode with none of the device or sockaddr bits reports `UCS_OK` and opens no interface. |
| `IfaceSetup.SockaddrOpenUsesFirstTransport` | src/uct/base/uct_md.c:288-303 | Any open mode with a sockaddr client or server bit and no device bit hands over to the first registered transport, returning its open result (interface or failure), when the MD flags contain `UCT_MD_FLAG_SOCKADDR` and the list is non-empty. Otherwise it fails with `UCS_ERR_NO_DEVICE`. |
| `IfaceSetup.UnknownTransportIsNoDevice` | src/uct/base/uct_md.c:247-256 | A transport name no registered transport carries makes both the iface config read and every device-mode iface open (device bit set, whatever other mode or field-mask bits, with the open-mode field present when parameters are checked) return `UCS_ERR_NO_DEVICE`. |
| `Rkey.StrnEqMeaning` | src/uct/base/uct_md.c:361-362 | `strncmp(a, b, n) == 0` if and only if the first n bytes agree, or both strings agree up to and including a NUL within them. |
| `Rkey.PaddedNamesMatchIffEqual` | src/uct/base/uct_md.c:361-362 | For NUL-padded name fields, the prefix check passes if and only if the buffer's first `UCT_MD_COMPONENT_NAME_MAX` bytes equal the component name. |
| `Rkey.NamePrefix` | src/uct/base/uct_md.c:351 | The bytes written ahead of the driver's token: the component's name in debug-data builds, nothing otherwise. |
| `Rkey.MkeyPack` | src/uct/base/uct_md.c:349-353 | The driver's status is returned. With debug data, the packed key is the component's name field followed by the driver's bytes. Without it, the key is the driver's bytes alone. |
| `Rkey.RkeyUnpack` | src/uct/base/uct_md.c:355-375 | With debug data and parameter checks, a prefix that fails `strncmp` against the component name gives `UCS_ERR_INVALID_PARAM` whatever the driver would do. Otherwise the driver gets the buffer advanced by exactly `UCT_MD_COMPONENT_NAME_MAX` bytes, or the whole buffer without debug data. |
| `Rkey.RkeyRoundTrip` | src/uct/base/uct_md.c:349-375 | Unpacking against the packing MD's own component passes the check in every build. The component's driver receives exactly the bytes the MD's driver packed. |
| `Rkey.ForeignRkeyRejected` | src/uct/base/uct_md.c:360-368 | With both checks on, a key packed under one component is rejected with `UCS_ERR_INVALID_PARAM` by a component with a different NUL-padded name. |
| `Rkey.OpenedMdSpeaksForItsComponent` | src/uct/base/uct_md.c:59-73 | An MD opened through a component reports that component's name from `uct_md_query`, and every key it packs passes that component's unpack check, with the driver receiving exactly the packed token. |
| `Rkey.PackedSizeMatchesQuery` | src/uct/base/uct_md.c:399-405 | If the driver's token length equals its reported packed size, the packed key's length equals the `rkey_packed_size` that `uct_md_query` reports, in either build, barring `size_t` overflow. |

## Findings

| source | as written | input that shows it | evidently intended | confidence | as-written member | corrected member |
|---|---|---|---|---|---|---|
| src/uct/base/uct_md.c:201-206 | When `ucs_strdup` of the prefix fails after a successful fill, the code jumps to `err_free_bundle`. That frees the block without `ucs_config_parser_release_opts`. | A schema with a string-typed option (the fill allocates its value) and a failing `ucs_strdup`. The read returns `UCS_ERR_NO_MEMORY` and the option value stays allocated. | Release the filled options before freeing the block, so that no failed read leaves anything allocated. | medium; not executed | `ConfigBundle.ConfigReadAsWritten` (with `ConfigBundle.ConfigReadAsWrittenLeaks`) | `ConfigBundle.ConfigRead` |

Every caller in the model (`IfaceSetup.MdConfigRead`, `IfaceSetup.IfaceConfigRead`) uses the
corrected read. It returns the same status and bundle as the code as written
(`ConfigReadFixOnlyChangesLeak`), and both callers state that equality in their contracts.

## Left out

- Pure forwards to a driver carry no logic of this layer and are not modelled:
  - `uct_md_close`, `uct_md_mem_free`, `uct_md_mem_dereg`;
  - `uct_md_is_sockaddr_accessible`, `uct_md_detect_memory_type`;
  - `uct_rkey_ptr`, `uct_rkey_release`;
  - `uct_release_tl_resource_list`.
- `uct_md_stub_rkey_unpack` is not modelled. It is a placeholder driver entry that returns a constant key and a NULL handle.
- The driver and parser implementations are opaque, and the model takes their results as given. This covers `md_open`, `query`, `query_resources`, `mem_*`, `mkey_pack`, `rkey_unpack`, `iface_open`, and `ucs_config_parser_*`.
- The static contents of `uct_md_config_table` and `uct_md_config_rcache_table` are data without behaviour. A schema is modelled by its option names only.
- Logging (`ucs_debug`, `ucs_error` and the `mdc_name` formatting for the log) is not modelled. Memory tracking, `memcpy` and the pointer step back to the bundle header are not modelled either. Allocation appears only as a success or failure outcome, and as a count of blocks left allocated.
- The layer takes no locks. The single-writer discipline on the global components list belongs to the callers.
- `src/ucs/profile/profile.h` only selects a header and has no logic.
- `uct_md_fill_md_name` is defined in `uct_md.h`, which is not part of this model. `Rkey.NamePrefix` models it as the layer uses it: it copies the name field in debug-data builds and writes nothing otherwise.
- `MemoryDomain.MdOpen`: `ucs_assert_always(md->component == component)` aborts the process. The model takes it as a precondition on the driver's result instead of modelling the abort.
- `ResourceDiscovery.QueryTlResources`: the `ucs_assert_always` on each resource's transport name is also taken as a precondition on the driver. The model requires it of every successful answer. The source only checks the answers it appends.
- `ResourceDiscovery.QueryTlResources`: the `unsigned` resource count is not wrapped at 32 bits. Whether each growth succeeds is an oracle indexed by the transport's position in the list.
- `Rkey.RkeyUnpack` requires the buffer to hold at least the `UCT_MD_COMPONENT_NAME_MAX`-byte prefix in debug-data builds. The C code advances past those bytes unconditionally.
- `Rkey.ForeignRkeyRejected` is stated for NUL-padded name fields only. For other fields, bytes after a shared NUL are invisible to `strncmp`. `Rkey.StrnEqMeaning` states the general behaviour.
- `ResourceDiscovery.QuerySingleMdResource`: a component name that fills its field without a NUL is read as the whole field. The C `%s` would read past the field.
- In `uct_md_mem_reg` the address and length check comes before the flags check. Both report `UCS_ERR_INVALID_PARAM`, so the order is not observable in the model.
- `IfaceSetup.MdConfigRead` uses the corrected read, so its "a failure leaves nothing allocated" does not hold of line 313 as written. There a strdup failure after a successful fill leaves the parser's blocks allocated (see "## Findings"). Status and bundle are unaffected.
- `IfaceSetup.IfaceConfigRead` uses the corrected read, so its "a failure leaves nothing allocated" does not hold of line 258 as written, for the same reason. Status and bundle are unaffected.
- `ResourceDiscovery.QuerySingleMdResource`: its name clause relies on `UCT_MD_COMPONENT_NAME_MAX < UCT_MD_NAME_MAX`. With equal widths `ucs_snprintf_zero` would cut a full-width name to `UCT_MD_NAME_MAX - 1` bytes.
- `MemoryDomain.IsHugetlb` has no partner lemma. It only forwards to an optional driver entry and defaults to 0, and its contract states both cases.
- `UCT_CHECK_PARAM` (line 285) is defined outside `uct_md.c`. The model reads it as: with `ENABLE_PARAMS_CHECK`, return `UCS_ERR_INVALID_PARAM` when the condition is false, and do nothing otherwise (`IfaceSetup.IfaceOpen`).
- `ucs_snprintf_zero` (line 154) is defined outside `uct_md.c`. The model reads it as: zero the whole field, then write the string cut to at most size - 1 bytes (`ResourceDiscovery.SnprintfZero`).

=== FILE: config_bundle.dfy ===
/**
  The configuration bundle (`uct_config_read`, `uct_config_release`,
  `uct_config_get`, `uct_config_modify`).

  In C the bundle is one block, a hidden header `{table, table_prefix}` placed
  right before the options data whose address the caller receives; here it is
  the explicit record `Bundle`. The options parser is the oracle `Parser`.

  To state ownership, every call also reports how many heap blocks it leaves
  allocated: the bundle block, the prefix copy, and whatever the parser
  allocated while filling options (`ConfigData.owned`, e.g. string values).
 */
module ConfigBundle {
  import opened UcsStatus
  import opened UctTypes

  /** A filled options block: option values, and the number of heap blocks the
      parser allocated for them and `release_opts` frees again. */
  datatype ConfigData = ConfigData(values: map<string, string>, owned: nat)

  /** The options parser (`ucs_config_parser_*`): fill a zeroed block of the
      given size from the schema, read one option as text into a buffer of a
      given size, set one option from text. */
  datatype Parser = Parser(
    fillOpts: (ConfigTable, nat, string, string) -> Result<ConfigData>,
    getValue: (ConfigData, ConfigTable, string, nat) -> (Status, string),
    setValue: (ConfigData, ConfigTable, string, string) -> (Status, ConfigData))

  /** The bundle: the schema the data was filled from, the owned copy of the
      configuration prefix, and the data itself. */
  datatype Bundle = Bundle(table: ConfigTable, tablePrefix: string, data: ConfigData)

  /** The outcome of a read: the status and bundle, and the number of heap
      blocks the call leaves allocated. */
  datatype ReadOutcome = ReadOutcome(result: Result<Bundle>, live: nat)

  /** The allocation steps the environment may fail: the bundle block
      (`ucs_calloc`) and the prefix copy (`ucs_strdup`). */
  datatype Allocator = Allocator(callocOk: bool, strdupOk: bool)

  /** One release step of `uct_config_release`. */
  datatype ReleaseStep =
    | ReleaseOpts(data: ConfigData, table: ConfigTable)  // ucs_config_parser_release_opts
    | FreePrefix(prefix: string)                         // ucs_free(table_prefix)
    | FreeBlock                                          // ucs_free(bundle)

  /** Heap blocks one release step gives back. */
  function Freed(step: ReleaseStep): nat {
    match step
    case ReleaseOpts(data, _) => data.owned
    case FreePrefix(_) => 1
    case FreeBlock => 1
  }

  /** Heap blocks a sequence of release steps gives back. */
  function FreedAll(steps: seq<ReleaseStep>): nat {
    if |steps| == 0 then 0 else Freed(steps[0]) + FreedAll(steps[1..])
  }

  /** Whether some step of a read fails, and with which status. */
  function ReadFailure(alloc: Allocator, parser: Parser, table: ConfigTable, size: nat,
                       envPrefix: string, cfgPrefix: string): Option<ErrStatus>
  {
    if !alloc.callocOk then Some(ErrNoMemory)
    else if parser.fillOpts(table, size, envPrefix, cfgPrefix).Failure? then
      Some(parser.fillOpts(table, size, envPrefix, cfgPrefix).status)
    else if !alloc.strdupOk then Some(ErrNoMemory)
    else None
  }

  /** `uct_config_read` as written: calloc, fill, strdup, each failure
      unwinding. When the strdup fails after a successful fill, the block is
      freed without releasing the filled options. */
  function ConfigReadAsWritten(alloc: Allocator, parser: Parser, table: ConfigTable, size: nat,
                               envPrefix: string, cfgPrefix: string): (r: ReadOutcome)
    ensures r.result.Failure? <==> ReadFailure(alloc, parser, table, size, envPrefix, cfgPrefix).Some?
    ensures r.result.Failure? ==> r.result.status == ReadFailure(alloc, parser, table, size, envPrefix, cfgPrefix).value
  {
    if !alloc.callocOk then ReadOutcome(Failure(ErrNoMemory), 0)
    else match parser.fillOpts(table, size, envPrefix, cfgPrefix)
      case Failure(status) => ReadOutcome(Failure(status), 0)
      case Success(data) =>
        if !alloc.strdupOk then ReadOutcome(Failure(ErrNoMemory), data.owned)
        else ReadOutcome(Success(Bundle(table, cfgPrefix, data)), 2 + data.owned)
  }

  /** The strdup failure path of the code as written leaks whatever the parser
      allocated: a schema with one string option and a failing strdup leave
      one block allocated although the read reports failure. */
  lemma ConfigReadAsWrittenLeaks(table: ConfigTable, size: nat, envPrefix: string, cfgPrefix: string)
    ensures var parser := Parser((t, n, e, c) => Success(ConfigData(map["NAME" := "x"], 1)),
                                 (d, t, name, max) => (Ok, ""),
                                 (d, t, name, value) => (Ok, d));
            var r := ConfigReadAsWritten(Allocator(true, false), parser, table, size, envPrefix, cfgPrefix);
            r.result.Failure? && r.live == 1
  {
  }

  /** `uct_config_read` with the strdup failure path releasing the filled
      options before freeing the block: no failure leaves anything allocated. */
  function ConfigRead(alloc: Allocator, parser: Parser, table: ConfigTable, size: nat,
                      envPrefix: string, cfgPrefix: string): (r: ReadOutcome)
    ensures var failure := ReadFailure(alloc, parser, table, size, envPrefix, cfgPrefix);
            && (failure.Some? ==> r.result == Failure(failure.value) && r.live == 0)
            && (failure.None? ==> r.result.Success?)
    ensures r.result.Success? ==>
              && r.result.value.table == table
              && r.result.value.tablePrefix == cfgPrefix
              && Success(r.result.value.data) == parser.fillOpts(table, size, envPrefix, cfgPrefix)
  {
    if !alloc.callocOk then ReadOutcome(Failure(ErrNoMemory), 0)
    else match parser.fillOpts(table, size, envPrefix, cfgPrefix)
      case Failure(status) => ReadOutcome(Failure(status), 0)
      case Success(data) =>
        if !alloc.strdupOk then ReadOutcome(Failure(ErrNoMemory), 0)
        else ReadOutcome(Success(Bundle(table, cfgPrefix, data)), 2 + data.owned)
  }

  /** The two reads agree on every status and bundle; they differ only in what
      the strdup failure path leaves allocated. */
  lemma ConfigReadFixOnlyChangesLeak(alloc: Allocator, parser: Parser, table: ConfigTable,
                                     size: nat, envPrefix: string, cfgPrefix: string)
    ensures ConfigRead(alloc, parser, table, size, envPrefix, cfgPrefix).result ==
            ConfigReadAsWritten(alloc, parser, table, size, envPrefix, cfgPrefix).result
    ensures ConfigRead(alloc, parser, table, size, envPrefix, cfgPrefix).result.Success? ==>
              ConfigRead(alloc, parser, table, size, envPrefix, cfgPrefix).live ==
              ConfigReadAsWritten(alloc, parser, table, size, envPrefix, cfgPrefix).live
  {
  }

  /** `uct_config_release`: release the options through the stored schema, free
      the prefix copy, free the block. */
  function ConfigRelease(bundle: Bundle): (steps: seq<ReleaseStep>)
    ensures |steps| == 3 && steps[0] == ReleaseOpts(bundle.data, bundle.table)
    ensures steps[1] == FreePrefix(bundle.tablePrefix) && steps[2] == FreeBlock
    ensures FreedAll(steps) == bundle.data.owned + 2
  {
    var steps := [ReleaseOpts(bundle.data, bundle.table), FreePrefix(bundle.tablePrefix), FreeBlock];
    assert steps[1..][1..] == [FreeBlock] && [FreeBlock][1..] == [];
    assert FreedAll([FreeBlock]) == 1;
    assert FreedAll(steps[1..]) == 2;
    steps
  }

  /** A read followed by a release leaves nothing allocated: the release frees
      exactly the blocks the read left live, through the schema it was read
      with. */
  lemma ReadThenReleaseBalances(alloc: Allocator, parser: Parser, table: ConfigTable, size: nat,
                                envPrefix: string, cfgPrefix: string)
    requires ConfigRead(alloc, parser, table, size, envPrefix, cfgPrefix).result.Success?
    ensures var r := ConfigRead(alloc, parser, table, size, envPrefix, cfgPrefix);
            && FreedAll(ConfigRelease(r.result.value)) == r.live
            && ConfigRelease(r.result.value)[0].table == table
  {
  }

  /** `uct_config_get`: the parser reads the option from the bundle's data
      through the bundle's schema. */
  function ConfigGet(bundle: Bundle, parser: Parser, name: string, max: nat): (r: (Status, string)) {
    parser.getValue(bundle.data, bundle.table, name, max)
  }

  /** `uct_config_modify`: the parser sets the option in the bundle's data
      through the bundle's schema; the schema and prefix are kept. */
  function ConfigModify(bundle: Bundle, parser: Parser, name: string, value: string)
    : (r: (Status, Bundle))
    ensures r.0 == parser.setValue(bundle.data, bundle.table, name, value).0
    ensures r.1.table == bundle.table && r.1.tablePrefix == bundle.tablePrefix
    ensures r.1.data == parser.setValue(bundle.data, bundle.table, name, value).1
  {
    var (status, data) := parser.setValue(bundle.data, bundle.table, name, value);
    (status, bundle.(data := data))
  }

  /** Reading, modifying and reading back all go through the schema and data the
      bundle was created with: a get right after a read sees the filled data,
      and a modified bundle is still released through the original schema. */
  lemma BundleKeepsSchema(alloc: Allocator, parser: Parser, table: ConfigTable, size: nat,
                          envPrefix: string, cfgPrefix: string,
                          name: string, value: string, max: nat)
    requires ConfigRead(alloc, parser, table, size, envPrefix, cfgPrefix).result.Success?
    ensures var b := ConfigRead(alloc, parser, table, size, envPrefix, cfgPrefix).result.value;
            && ConfigGet(b, parser, name, max) ==
                 parser.getValue(parser.fillOpts(table, size, envPrefix, cfgPrefix).value, table, name, max)
            && ConfigRelease(ConfigModify(b, parser, name, value).1)[0].table == table
            && ConfigRelease(ConfigModify(b, parser, name, value).1)[1] == FreePrefix(cfgPrefix)
  {
  }
}

=== FILE: iface_setup.dfy ===
/**
  The steps before an interface exists: reading an MD's or a transport's
  configuration (`uct_md_config_read`, `uct_md_iface_config_read`) and choosing
  the transport an interface is opened on (`uct_iface_open`, up to the driver
  call).
 */
module IfaceSetup {
  import opened UcsStatus
  import opened UctTypes
  import opened TransportLookup
  import opened ConfigBundle
  import MemoryDomain

  /** `UCT_IFACE_PARAM_FIELD_OPEN_MODE` in the parameters' field mask. */
  const IFACE_PARAM_FIELD_OPEN_MODE: bv64 := 0x2

  /** `UCT_IFACE_OPEN_MODE_DEVICE`, `_SOCKADDR_SERVER` and `_SOCKADDR_CLIENT`. */
  const IFACE_OPEN_MODE_DEVICE: bv64 := 0x1
  const IFACE_OPEN_MODE_SOCKADDR_SERVER: bv64 := 0x2
  const IFACE_OPEN_MODE_SOCKADDR_CLIENT: bv64 := 0x4

  /** The parts of `uct_iface_params_t` this layer reads; a device-mode
      transport name may be NULL. */
  datatype IfaceParams = IfaceParams(fieldMask: bv64, openMode: bv64, deviceTlName: Option<string>)

  /** An opened interface, as the transport's driver creates it. */
  datatype Iface = Iface(id: nat)

  /** What `uct_iface_open` leaves behind: an interface, a failure status, or
      the status `UCS_OK` with no interface written. */
  datatype IfaceOpenResult = Opened(iface: Iface) | Failed(status: ErrStatus) | OkWithoutIface {

    /** The `ucs_status_t` the C function returns. */
    function StatusOf(): Status {
      match this
      case Opened(_) => Ok
      case Failed(status) => status
      case OkWithoutIface => Ok
    }
  }

  /** Whether the open mode asks for a device or a sockaddr interface. */
  predicate KnownOpenMode(openMode: bv64) {
    || openMode & IFACE_OPEN_MODE_DEVICE != 0
    || openMode & IFACE_OPEN_MODE_SOCKADDR_CLIENT != 0
    || openMode & IFACE_OPEN_MODE_SOCKADDR_SERVER != 0
  }

  /** The transport name the lookup is given: the device's name in device
      mode, NULL in sockaddr mode. */
  function LookupName(params: IfaceParams): Option<string> {
    if params.openMode & IFACE_OPEN_MODE_DEVICE != 0 then params.deviceTlName else None
  }

  /** `uct_md_config_read`: a bundle read with the component's MD schema and
      configuration prefix. The read is the corrected `ConfigRead`; its status
      and bundle are those of the read as written. */
  function MdConfigRead(component: Component, envPrefix: string, parser: Parser, alloc: Allocator)
    : (r: ReadOutcome)
    ensures var failure := ReadFailure(alloc, parser, component.mdConfigTable, component.mdConfigSize,
                                       envPrefix, component.cfgPrefix);
            && (failure.Some? ==> r.result == Failure(failure.value) && r.live == 0)
            && (failure.None? ==> r.result.Success?)
    ensures r.result == ConfigReadAsWritten(alloc, parser, component.mdConfigTable, component.mdConfigSize,
                                            envPrefix, component.cfgPrefix).result
    ensures r.result.Success? ==>
              && r.result.value.table == component.mdConfigTable
              && r.result.value.tablePrefix == component.cfgPrefix
              && Success(r.result.value.data)
                 == parser.fillOpts(component.mdConfigTable, component.mdConfigSize, envPrefix, component.cfgPrefix)
              && r.live == FreedAll(ConfigRelease(r.result.value))
  {
    ConfigReadFixOnlyChangesLeak(alloc, parser, component.mdConfigTable, component.mdConfigSize,
                                 envPrefix, component.cfgPrefix);
    ConfigRead(alloc, parser, component.mdConfigTable, component.mdConfigSize, envPrefix, component.cfgPrefix)
  }

  /** `uct_md_iface_config_read`: query the MD, find the transport by name (or,
      with no name, by the MD's sockaddr capability), then read a bundle with
      that transport's interface schema and prefix. The read is the corrected
      `ConfigRead`; its status and bundle are those of the read as written. */
  function IfaceConfigRead(build: BuildConfig, md: Md, tlName: Option<string>, envPrefix: string,
                           parser: Parser, alloc: Allocator): (r: ReadOutcome)
    ensures r.result.Failure? ==> r.live == 0
    ensures md.ops.query.Failure? ==> r.result == Failure(md.ops.query.status)
    ensures md.ops.query.Success? ==>
              match FindTl(md.component.tlList, md.ops.query.value.capFlags, tlName)
              case None => r.result == Failure(ErrNoDevice)
              case Some(tl) =>
                var failure := ReadFailure(alloc, parser, tl.ifaceConfigTable, tl.ifaceConfigSize,
                                           envPrefix, tl.cfgPrefix);
                && (failure.Some? ==> r.result == Failure(failure.value))
                && (failure.None? ==> r.result.Success?)
                && r.result == ConfigReadAsWritten(alloc, parser, tl.ifaceConfigTable, tl.ifaceConfigSize,
                                                   envPrefix, tl.cfgPrefix).result
                && (r.result.Success? ==>
                      Success(r.result.value.data)
                      == parser.fillOpts(tl.ifaceConfigTable, tl.ifaceConfigSize, envPrefix, tl.cfgPrefix))
    ensures r.result.Success? ==>
              var tl := FindTl(md.component.tlList, md.ops.query.value.capFlags, tlName);
              && tl.Some? && tl.value in md.component.tlList
              && r.result.value.table == tl.value.ifaceConfigTable
              && r.result.value.tablePrefix == tl.value.cfgPrefix
              && r.live == FreedAll(ConfigRelease(r.result.value))
  {
    match MemoryDomain.MdQuery(build, md)
    case Failure(status) => ReadOutcome(Failure(status), 0)
    case Success(attr) =>
      match FindTl(md.component.tlList, attr.capFlags, tlName)
      case None => ReadOutcome(Failure(ErrNoDevice), 0)
      case Some(tl) =>
        ConfigReadFixOnlyChangesLeak(alloc, parser, tl.ifaceConfigTable, tl.ifaceConfigSize,
                                     envPrefix, tl.cfgPrefix);
        ConfigRead(alloc, parser, tl.ifaceConfigTable, tl.ifaceConfigSize, envPrefix, tl.cfgPrefix)
  }

  /** `uct_iface_open` up to the transport's own open: query the MD, check the
      open mode is given (when parameters are checked), pick the transport for
      the mode, and hand over to it. An unrecognised mode returns the query's
      status, which is `UCS_OK`, without opening anything. */
  function IfaceOpen(build: BuildConfig, md: Md, params: IfaceParams,
                     open: (TlComponent, IfaceParams) -> Result<Iface>): (r: IfaceOpenResult)
    ensures md.ops.query.Failure? ==> r == Failed(md.ops.query.status)
    ensures (md.ops.query.Success? && build.paramsCheck
             && params.fieldMask & IFACE_PARAM_FIELD_OPEN_MODE == 0) ==> r == Failed(ErrInvalidParam)
    ensures r.Opened? ==>
              exists i :: 0 <= i < |md.component.tlList| && open(md.component.tlList[i], params) == Success(r.iface)
    ensures r.Opened? || r.OkWithoutIface? ==> md.ops.query.Success?
    ensures r.OkWithoutIface? <==>
              && md.ops.query.Success?
              && (!build.paramsCheck || params.fieldMask & IFACE_PARAM_FIELD_OPEN_MODE != 0)
              && !KnownOpenMode(params.openMode)
    ensures (md.ops.query.Success? && KnownOpenMode(params.openMode)
             && (!build.paramsCheck || params.fieldMask & IFACE_PARAM_FIELD_OPEN_MODE != 0)) ==>
              match FindTl(md.component.tlList, md.ops.query.value.capFlags, LookupName(params))
              case None => r == Failed(ErrNoDevice)
              case Some(tl) => r == (match open(tl, params)
                                     case Success(iface) => Opened(iface)
                                     case Failure(status) => Failed(status))
  {
    match MemoryDomain.MdQuery(build, md)
    case Failure(status) => Failed(status)
    case Success(attr) =>
      if build.paramsCheck && params.fieldMask & IFACE_PARAM_FIELD_OPEN_MODE == 0 then
        Failed(ErrInvalidParam)
      else if !KnownOpenMode(params.openMode) then
        OkWithoutIface
      else
        match FindTl(md.component.tlList, attr.capFlags, LookupName(params))
        case None => Failed(ErrNoDevice)
        case Some(tl) =>
          match open(tl, params)
          case Success(iface) => Opened(iface)
          case Failure(status) => Failed(status)
  }

  /** An open mode that is neither device nor sockaddr reports success although
      no interface was opened. */
  lemma UnknownOpenModeReportsOk(build: BuildConfig, md: Md, params: IfaceParams,
                                 open: (TlComponent, IfaceParams) -> Result<Iface>)
    requires md.ops.query.Success?
    requires !build.paramsCheck || params.fieldMask & IFACE_PARAM_FIELD_OPEN_MODE != 0
    requires params.openMode & (IFACE_OPEN_MODE_DEVICE | IFACE_OPEN_MODE_SOCKADDR_CLIENT
                                | IFACE_OPEN_MODE_SOCKADDR_SERVER) == 0
    ensures IfaceOpen(build, md, params, open).StatusOf() == Ok
    ensures !IfaceOpen(build, md, params, open).Opened?
  {
  }

  /** A sockaddr interface (client, server or both, with no device bit) is
      opened on the component's first transport, with that transport's open
      result, when the MD advertises sockaddr support, and fails with
      `UCS_ERR_NO_DEVICE` otherwise, whatever the transports themselves support. */
  lemma SockaddrOpenUsesFirstTransport(build: BuildConfig, md: Md, params: IfaceParams,
                                       open: (TlComponent, IfaceParams) -> Result<Iface>)
    requires md.ops.query.Success?
    requires !build.paramsCheck || params.fieldMask & IFACE_PARAM_FIELD_OPEN_MODE != 0
    requires params.openMode & IFACE_OPEN_MODE_DEVICE == 0
    requires params.openMode & (IFACE_OPEN_MODE_SOCKADDR_CLIENT | IFACE_OPEN_MODE_SOCKADDR_SERVER) != 0
    ensures var tls := md.component.tlList;
            if |tls| > 0 && md.ops.query.value.capFlags & MD_FLAG_SOCKADDR != 0 then
              IfaceOpen(build, md, params, open) == (match open(tls[0], params)
                                                     case Success(iface) => Opened(iface)
                                                     case Failure(status) => Failed(status))
            else
              IfaceOpen(build, md, params, open) == Failed(ErrNoDevice)
  {
    FindTlWithoutName(md.component.tlList, md.ops.query.value.capFlags);
  }

  /** A transport name that no registered transport carries makes both the
      configuration read and any device-mode interface open (whatever other
      field-mask or mode bits are set) report `UCS_ERR_NO_DEVICE`. */
  lemma UnknownTransportIsNoDevice(build: BuildConfig, md: Md, name: string, envPrefix: string,
                                   parser: Parser, alloc: Allocator,
                                   params: IfaceParams, open: (TlComponent, IfaceParams) -> Result<Iface>)
    requires md.ops.query.Success?
    requires forall i :: 0 <= i < |md.component.tlList| ==> md.component.tlList[i].name != name
    requires params.openMode & IFACE_OPEN_MODE_DEVICE != 0 && params.deviceTlName == Some(name)
    requires !build.paramsCheck || params.fieldMask & IFACE_PARAM_FIELD_OPEN_MODE != 0
    ensures IfaceConfigRead(build, md, Some(name), envPrefix, parser, alloc).result == Failure(ErrNoDevice)
    ensures IfaceOpen(build, md, params, open) == Failed(ErrNoDevice)
  {
    FindTlByName(md.component.tlList, md.ops.query.value.capFlags, name);
  }
}

=== FILE: memory_domain.dfy ===
/**
  Memory-domain lifecycle and the validating dispatch of memory operations
  (`uct_md_open`, `uct_md_query`, `uct_md_mem_alloc`, `uct_md_mem_advise`,
  `uct_md_mem_reg`, `uct_md_is_hugetlb`): cheap argument checks first, the
  driver's operation table after.
 */
module MemoryDomain {
  import opened UcsStatus
  import opened UctTypes
  import ConfigBundle

  /** `UCT_MD_MEM_ACCESS_REMOTE_PUT`, `_GET` and `_ATOMIC` memory flags. */
  const MEM_ACCESS_REMOTE_PUT: bv32 := 0x20
  const MEM_ACCESS_REMOTE_GET: bv32 := 0x40
  const MEM_ACCESS_REMOTE_ATOMIC: bv32 := 0x80

  /** `UCT_MD_MEM_ACCESS_ALL`: the union of the recognised access modes. */
  const MEM_ACCESS_ALL: bv32 := MEM_ACCESS_REMOTE_PUT | MEM_ACCESS_REMOTE_GET | MEM_ACCESS_REMOTE_ATOMIC

  /** Whether the flags ask for at least one recognised remote access mode. */
  predicate RequestsAccess(flags: bv32) {
    || flags & MEM_ACCESS_REMOTE_PUT != 0
    || flags & MEM_ACCESS_REMOTE_GET != 0
    || flags & MEM_ACCESS_REMOTE_ATOMIC != 0
  }

  /** Whether an address range is unusable: empty, or starting at NULL. */
  predicate EmptyRange(address: nat, length: SizeT) {
    length == 0 || address == 0
  }

  /** `uct_md_open`: the driver's open, whose status is passed back unchanged.
      The source aborts unless the driver's MD records the opening component. */
  function MdOpen(component: Component, mdName: string, config: ConfigBundle.ConfigData,
                  open: (string, ConfigBundle.ConfigData) -> Result<Md>): (r: Result<Md>)
    requires open(mdName, config).Success? ==> open(mdName, config).value.component == component
    ensures r.StatusOf() == open(mdName, config).StatusOf()
    ensures r.Failure? ==> r.status == open(mdName, config).status
    ensures r.Success? ==> r.value.component == component
  {
    open(mdName, config)
  }

  /** `uct_md_query`: the driver's attributes, with the component name laid
      over them and, in debug-data builds, the packed rkey size grown by the
      name prefix (in `size_t` arithmetic). A driver failure is passed back. */
  function MdQuery(build: BuildConfig, md: Md): (r: Result<MdAttr>)
    ensures md.ops.query.Failure? ==> r == md.ops.query
    ensures md.ops.query.Success? ==> r.Success?
    ensures r.Success? ==>
              && r.value.componentName == md.component.name
              && r.value.capFlags == md.ops.query.value.capFlags
    ensures r.Success? && !build.debugData ==>
              r.value.rkeyPackedSize == md.ops.query.value.rkeyPackedSize
    ensures r.Success? && build.debugData
            && md.ops.query.value.rkeyPackedSize + COMPONENT_NAME_MAX < SIZE_T_MODULUS ==>
              r.value.rkeyPackedSize == md.ops.query.value.rkeyPackedSize + COMPONENT_NAME_MAX
    ensures r.Success? && build.debugData
            && md.ops.query.value.rkeyPackedSize + COMPONENT_NAME_MAX >= SIZE_T_MODULUS ==>
              r.value.rkeyPackedSize == md.ops.query.value.rkeyPackedSize + COMPONENT_NAME_MAX - SIZE_T_MODULUS
  {
    match md.ops.query
    case Failure(status) => Failure(status)
    case Success(attr) =>
      var named := attr.(componentName := md.component.name);
      if build.debugData then
        Success(named.(rkeyPackedSize := AddSizeT(attr.rkeyPackedSize, COMPONENT_NAME_MAX)))
      else Success(named)
  }

  /** `uct_mem_check_flags`: OK exactly when some recognised access mode is
      requested. */
  function MemCheckFlags(flags: bv32): (r: Status)
    ensures r == Ok <==> RequestsAccess(flags)
    ensures r != Ok ==> r == ErrInvalidParam
  {
    if flags & MEM_ACCESS_ALL == 0 then ErrInvalidParam else Ok
  }

  /** `uct_md_mem_alloc`: only the flags are checked before the driver is asked;
      the driver gets the requested length and the caller's address hint. */
  function MemAlloc(md: Md, length: SizeT, address: nat, flags: bv32, allocName: string)
    : (r: Result<Allocation>)
    ensures !RequestsAccess(flags) ==> r == Failure(ErrInvalidParam)
    ensures RequestsAccess(flags) ==> r == md.ops.memAlloc(length, address, flags, allocName)
  {
    var status := MemCheckFlags(flags);
    if status != Ok then Failure(status) else md.ops.memAlloc(length, address, flags, allocName)
  }

  /** `uct_md_mem_advise`: only the range is checked before the driver is asked. */
  function MemAdvise(md: Md, memh: MemHandle, address: nat, length: SizeT, advice: nat): (r: Status)
    ensures EmptyRange(address, length) ==> r == ErrInvalidParam
    ensures !EmptyRange(address, length) ==> r == md.ops.memAdvise(memh, address, length, advice)
  {
    if length == 0 || address == 0 then ErrInvalidParam
    else md.ops.memAdvise(memh, address, length, advice)
  }

  /** `uct_md_mem_reg`: the range is checked, then the flags, and only then is
      the driver asked. Both checks report `UCS_ERR_INVALID_PARAM`. */
  function MemReg(md: Md, address: nat, length: SizeT, flags: bv32): (r: Result<MemHandle>)
    ensures EmptyRange(address, length) || !RequestsAccess(flags) ==> r == Failure(ErrInvalidParam)
    ensures !EmptyRange(address, length) && RequestsAccess(flags) ==>
              r == md.ops.memReg(address, length, flags)
  {
    if length == 0 || address == 0 then Failure(ErrInvalidParam)
    else
      var status := MemCheckFlags(flags);
      if status != Ok then Failure(status) else md.ops.memReg(address, length, flags)
  }

  /** The validation of registration does not depend on the driver: two MDs
      that differ only in their operation tables reject the same requests. */
  lemma MemRegRejectionIsDriverIndependent(md1: Md, md2: Md, address: nat, length: SizeT, flags: bv32)
    requires EmptyRange(address, length) || !RequestsAccess(flags)
    ensures MemReg(md1, address, length, flags) == MemReg(md2, address, length, flags)
  {
  }

  /** Advise and registration share the range check: for a driver that accepts
      both requests, advise rejects a range exactly when registration does, and
      exactly when the range is empty or starts at NULL. */
  lemma AdviseAndRegRejectSameRanges(md: Md, memh: MemHandle, address: nat, length: SizeT,
                                     advice: nat, flags: bv32)
    requires RequestsAccess(flags)
    requires md.ops.memAdvise(memh, address, length, advice) == Ok
    requires md.ops.memReg(address, length, flags).Success?
    ensures MemAdvise(md, memh, address, length, advice) == ErrInvalidParam
            <==> MemReg(md, address, length, flags) == Failure(ErrInvalidParam)
    ensures MemAdvise(md, memh, address, length, advice) == ErrInvalidParam <==> EmptyRange(address, length)
  {
  }

  /** `uct_md_is_hugetlb`: the driver's answer when it implements the query,
      and 0 ("not huge") when it does not. */
  function IsHugetlb(md: Md, memh: MemHandle): (r: int)
    ensures md.ops.isHugetlb.None? ==> r == 0
    ensures md.ops.isHugetlb.Some? ==> r == md.ops.isHugetlb.value(memh)
  {
    match md.ops.isHugetlb
    case None => 0
    case Some(query) => query(memh)
  }
}

=== FILE: resource_discovery.dfy ===
/**
  Transport-resource discovery on a memory domain (`uct_md_query_tl_resources`)
  and the two stock MD-resource enumerators drivers can plug in.

  A transport's `query_resources` is the oracle `query`; whether the growth of
  the aggregate buffer (`ucs_realloc`) succeeds when the transport at position
  `i` is appended is the oracle `growOk(i)`.
 */
module ResourceDiscovery {
  import opened UcsStatus
  import opened UctTypes

  /** Whether a transport's answer reaches the buffer-growth step: only a
      successful query with at least one resource does. */
  predicate Grows(answer: Result<seq<TlResource>>) {
    answer.Success? && |answer.value| > 0
  }

  /** What one transport adds to the aggregate: nothing when its query failed. */
  function Contribution(answer: Result<seq<TlResource>>): seq<TlResource> {
    if answer.Success? then answer.value else []
  }

  /** Reference definition: the resources of every transport, concatenated in
      registration order. */
  function Aggregate(tls: seq<TlComponent>, query: TlComponent -> Result<seq<TlResource>>)
    : seq<TlResource>
  {
    if |tls| == 0 then [] else Aggregate(tls[..|tls| - 1], query) + Contribution(query(tls[|tls| - 1]))
  }

  /** Whether growing the buffer fails at some transport that reaches that step. */
  ghost predicate GrowthFails(tls: seq<TlComponent>, query: TlComponent -> Result<seq<TlResource>>,
                              growOk: nat -> bool)
  {
    exists i :: 0 <= i < |tls| && Grows(query(tls[i])) && !growOk(i)
  }

  /** The driver-side invariant the source asserts (and aborts on): every
      resource a transport reports carries that transport's name. */
  predicate ReportsOwnName(tl: TlComponent, answer: Result<seq<TlResource>>) {
    answer.Success? ==> forall k :: 0 <= k < |answer.value| ==> answer.value[k].tlName == tl.name
  }

  /** `uct_md_query_tl_resources`: a fold over the component's transport list
      that skips failed and empty transports, appends the rest in order and
      gives up with `UCS_ERR_NO_MEMORY` when the buffer cannot grow. */
  method QueryTlResources(md: Md, query: TlComponent -> Result<seq<TlResource>>, growOk: nat -> bool)
    returns (r: Result<Listing<TlResource>>)
    requires forall i :: 0 <= i < |md.component.tlList| ==>
               ReportsOwnName(md.component.tlList[i], query(md.component.tlList[i]))
    ensures r.Failure? <==> GrowthFails(md.component.tlList, query, growOk)
    ensures r.Failure? ==> r.status == ErrNoMemory
    ensures r.Success? ==> r.value.WellFormed()
    ensures r.Success? ==> r.value.Items() == Aggregate(md.component.tlList, query)
  {
    var tls := md.component.tlList;
    var resources: Option<seq<TlResource>> := None;
    var numResources: nat := 0;
    var i := 0;
    while i < |tls|
      invariant 0 <= i <= |tls|
      invariant forall k :: 0 <= k < i ==> !(Grows(query(tls[k])) && !growOk(k))
      invariant Listing(resources, numResources).WellFormed()
      invariant Listing(resources, numResources).Items() == Aggregate(tls[..i], query)
    {
      assert tls[..i + 1][..i] == tls[..i];
      var answer := query(tls[i]);
      if answer.Success? && |answer.value| > 0 {
        if !growOk(i) {
          // the transport's own list and the aggregate buffer are both released
          return Failure(ErrNoMemory);
        }
        assert forall k :: 0 <= k < |answer.value| ==> answer.value[k].tlName == tls[i].name;
        var grown := Listing(resources, numResources).Items() + answer.value;
        resources := Some(grown);
        numResources := numResources + |answer.value|;
      }
      i := i + 1;
    }
    assert tls[..i] == tls;
    return Success(Listing(resources, numResources));
  }

  /** Concatenation distributes over splitting the transport list. */
  lemma {:induction false} AggregateAppend(a: seq<TlComponent>, b: seq<TlComponent>,
                                           query: TlComponent -> Result<seq<TlResource>>)
    ensures Aggregate(a + b, query) == Aggregate(a, query) + Aggregate(b, query)
    decreases |b|
  {
    if |b| == 0 {
      assert a + b == a;
    } else {
      var n := |b| - 1;
      assert (a + b)[..|a + b| - 1] == a + b[..n];
      AggregateAppend(a, b[..n], query);
    }
  }

  /** A transport that fails its query or reports nothing contributes nothing:
      dropping it from the list leaves the aggregate unchanged. */
  lemma SkippedTransportContributesNothing(tls: seq<TlComponent>, k: nat,
                                           query: TlComponent -> Result<seq<TlResource>>)
    requires k < |tls|
    requires !Grows(query(tls[k]))
    ensures Aggregate(tls, query) == Aggregate(tls[..k] + tls[k + 1..], query)
  {
    var before, after := tls[..k], tls[k + 1..];
    var upTo := before + [tls[k]];
    assert tls == upTo + after;
    assert upTo[..|upTo| - 1] == before;
    assert Aggregate(upTo, query) == Aggregate(before, query);
    AggregateAppend(upTo, after, query);
    AggregateAppend(before, after, query);
  }

  /** A resource is in the aggregate exactly when some registered transport
      reported it. */
  lemma {:induction false} AggregateMembership(tls: seq<TlComponent>,
                                               query: TlComponent -> Result<seq<TlResource>>,
                                               res: TlResource)
    ensures res in Aggregate(tls, query) <==>
              exists i :: 0 <= i < |tls| && res in Contribution(query(tls[i]))
  {
    if |tls| > 0 {
      var n := |tls| - 1;
      AggregateMembership(tls[..n], query, res);
      if res in Aggregate(tls, query) && res !in Contribution(query(tls[n])) {
        var i :| 0 <= i < n && res in Contribution(query(tls[..n][i]));
        assert tls[..n][i] == tls[i];
      }
      if exists i :: 0 <= i < |tls| && res in Contribution(query(tls[i])) {
        var i :| 0 <= i < |tls| && res in Contribution(query(tls[i]));
        if i < n {
          assert tls[..n][i] == tls[i];
        }
      }
    }
  }

  /** Given the driver invariant the source asserts, every discovered resource
      names a transport registered under the MD's component. */
  lemma DiscoveredResourcesNameRegisteredTransports(tls: seq<TlComponent>,
                                                     query: TlComponent -> Result<seq<TlResource>>,
                                                     res: TlResource)
    requires forall i :: 0 <= i < |tls| ==> ReportsOwnName(tls[i], query(tls[i]))
    requires res in Aggregate(tls, query)
    ensures exists i :: 0 <= i < |tls| && tls[i].name == res.tlName
  {
    AggregateMembership(tls, query, res);
    var i :| 0 <= i < |tls| && res in Contribution(query(tls[i]));
    var k :| 0 <= k < |query(tls[i]).value| && query(tls[i]).value[k] == res;
  }

  /** The discovery scenario of three transports: the first reports two
      resources, the second fails its query, the third reports none. The
      result is exactly the first transport's two resources. */
  lemma DiscoveryScenario(t1: TlComponent, t2: TlComponent, t3: TlComponent,
                          r1: TlResource, r2: TlResource, e: ErrStatus,
                          query: TlComponent -> Result<seq<TlResource>>)
    requires query(t1) == Success([r1, r2])
    requires query(t2) == Failure(e)
    requires query(t3) == Success([])
    ensures Aggregate([t1, t2, t3], query) == [r1, r2]
    ensures !GrowthFails([t1, t2, t3], query, i => i == 0)
  {
    assert [t1, t2, t3][..2] == [t1, t2];
    assert [t1, t2][..1] == [t1];
    assert [t1][..0] == [];
    assert Aggregate([t1], query) == [r1, r2];
    assert Aggregate([t1, t2], query) == [r1, r2];
  }

  /** `uct_md_query_single_md_resource`: one MD resource named after the
      component, unless allocating it fails. */
  function QuerySingleMdResource(component: Component, mallocOk: bool)
    : (r: Result<Listing<MdResource>>)
    ensures !mallocOk ==> r == Failure(ErrNoMemory)
    ensures mallocOk ==> r.Success? && r.value.WellFormed() && r.value.count == 1
    ensures mallocOk ==> |r.value.Items()[0].mdName| == MD_NAME_MAX
    ensures mallocOk ==> CString(r.value.Items()[0].mdName) == CString(component.name)
  {
    if !mallocOk then Failure(ErrNoMemory)
    else
      var name := SnprintfZero(CString(component.name), MD_NAME_MAX);
      assert name == CString(component.name) + Zeros(MD_NAME_MAX - |CString(component.name)|);
      PaddedCString(CString(component.name), MD_NAME_MAX - |CString(component.name)|);
      Success(Listing(Some([MdResource(name)]), 1))
  }

  /** `ucs_snprintf_zero(buf, size, "%s", s)`: the field is cleared, then the
      string is written truncated to `size - 1` bytes. */
  function SnprintfZero(s: seq<byte>, size: nat): (r: seq<byte>)
    requires size > 0
    ensures |r| == size
  {
    var n := if |s| < size then |s| else size - 1;
    s[..n] + Zeros(size - n)
  }

  /** `n` NUL bytes. */
  function Zeros(n: nat): (r: seq<byte>)
    ensures |r| == n && forall i :: 0 <= i < n ==> r[i] == NUL
  {
    seq(n, _ => NUL)
  }

  /** A NUL-free string followed by NUL padding reads back as that string. */
  lemma {:induction false} PaddedCString(s: seq<byte>, pad: nat)
    requires NUL !in s
    requires pad > 0
    ensures CString(s + Zeros(pad)) == s
  {
    if |s| == 0 {
      assert (s + Zeros(pad))[0] == NUL;
    } else {
      assert (s + Zeros(pad))[1..] == s[1..] + Zeros(pad);
      PaddedCString(s[1..], pad);
    }
  }

  /** `uct_md_query_empty_md_resource`: a NULL list with a zero count. */
  function QueryEmptyMdResource(): (r: Result<Listing<MdResource>>)
    ensures r.Success? && r.value.WellFormed() && r.value.Items() == []
  {
    Success(Listing(None, 0))
  }
}

=== FILE: rkey.dfy ===
/**
  The remote-key wire protocol of the layer (`uct_md_mkey_pack`,
  `uct_rkey_unpack`): in debug-data builds a packed rkey starts with the
  fixed-width name of the component that packed it, and unpacking checks that
  prefix against the unpacking component before the driver sees the rest.
 */
module Rkey {
  import opened UcsStatus
  import opened UctTypes
  import MemoryDomain
  import ConfigBundle

  /** What a component's `rkey_unpack` produces (`uct_rkey_bundle_t`). */
  datatype RkeyBundle = RkeyBundle(rkey: nat, handle: Option<nat>)

  /** `strncmp(a, b, n) == 0`: the first `n` bytes agree, where the comparison
      stops early at a NUL both strings share. */
  function StrnEq(a: seq<byte>, b: seq<byte>, n: nat): bool
    requires n <= |a| && n <= |b|
  {
    if n == 0 then true
    else if a[0] != b[0] then false
    else if a[0] == NUL then true
    else StrnEq(a[1..], b[1..], n - 1)
  }

  /** `strncmp` reports equality exactly when the first `n` bytes are equal, or
      when both strings agree up to and including a NUL within those bytes. */
  lemma {:induction false} StrnEqMeaning(a: seq<byte>, b: seq<byte>, n: nat)
    requires n <= |a| && n <= |b|
    ensures StrnEq(a, b, n) <==>
              (a[..n] == b[..n] || exists k :: 0 <= k < n && a[k] == NUL && a[..k + 1] == b[..k + 1])
  {
    if n > 0 {
      StrnEqMeaning(a[1..], b[1..], n - 1);
      assert a[..n] == [a[0]] + a[1..][..n - 1];
      assert b[..n] == [b[0]] + b[1..][..n - 1];
      if StrnEq(a, b, n) {
        if a[0] == NUL {
          assert a[..1] == b[..1];
        } else if a[1..][..n - 1] != b[1..][..n - 1] {
          var k :| 0 <= k < n - 1 && a[1..][k] == NUL && a[1..][..k + 1] == b[1..][..k + 1];
          assert a[..k + 2] == [a[0]] + a[1..][..k + 1];
          assert b[..k + 2] == [b[0]] + b[1..][..k + 1];
        }
      } else if a[0] != b[0] {
        assert a[..n][0] != b[..n][0];
        forall k | 0 <= k < n && a[k] == NUL
          ensures a[..k + 1] != b[..k + 1]
        {
          assert a[..k + 1][0] != b[..k + 1][0];
        }
      } else {
        // equal, non-NUL first bytes: a shared NUL would have to lie in the tails
        forall k | 0 <= k < n && a[k] == NUL
          ensures a[..k + 1] != b[..k + 1]
        {
          assert a[1..][..k] == a[..k + 1][1..];
        }
      }
    }
  }

  /** A fixed-width name field holding a C string padded with NULs: once a NUL
      appears, every later byte is NUL too. */
  ghost predicate Padded(s: seq<byte>) {
    forall i, j :: 0 <= i < j < |s| && s[i] == NUL ==> s[j] == NUL
  }

  /** For padded name fields, the prefix check tells names apart exactly:
      it passes if and only if the buffer's first bytes equal the name. */
  lemma PaddedNamesMatchIffEqual(buffer: seq<byte>, name: ComponentName)
    requires |buffer| >= COMPONENT_NAME_MAX
    requires Padded(buffer[..COMPONENT_NAME_MAX]) && Padded(name)
    ensures StrnEq(buffer, name, COMPONENT_NAME_MAX) <==> buffer[..COMPONENT_NAME_MAX] == name
  {
    var n := COMPONENT_NAME_MAX;
    StrnEqMeaning(buffer, name, n);
    assert name[..n] == name;
    if StrnEq(buffer, name, n) && buffer[..n] != name {
      var k :| 0 <= k < n && buffer[k] == NUL && buffer[..k + 1] == name[..k + 1];
      forall j | 0 <= j < n
        ensures buffer[..n][j] == name[j]
      {
        if j <= k {
          assert buffer[..k + 1][j] == name[..k + 1][j];
        } else {
          assert buffer[..n][k] == NUL;
          assert name[k] == name[..k + 1][k];
        }
      }
    }
  }

  /** `uct_md_fill_md_name` (from the `uct_md.h` header): the bytes put in front
      of the driver's token. */
  function NamePrefix(build: BuildConfig, component: Component): (prefix: seq<byte>)
    ensures build.debugData ==> prefix == component.name
    ensures !build.debugData ==> prefix == []
  {
    if build.debugData then component.name else []
  }

  /** `uct_md_mkey_pack`: the component-name prefix (debug-data builds only)
      followed by the bytes the driver packs; the driver's failure is passed back. */
  function MkeyPack(build: BuildConfig, md: Md, memh: MemHandle): (r: Result<seq<byte>>)
    ensures r.StatusOf() == md.ops.mkeyPack(memh).StatusOf()
    ensures r.Success? && build.debugData ==>
              && |r.value| == COMPONENT_NAME_MAX + |md.ops.mkeyPack(memh).value|
              && r.value[..COMPONENT_NAME_MAX] == md.component.name
              && r.value[COMPONENT_NAME_MAX..] == md.ops.mkeyPack(memh).value
    ensures r.Success? && !build.debugData ==> r.value == md.ops.mkeyPack(memh).value
  {
    match md.ops.mkeyPack(memh)
    case Failure(status) => Failure(status)
    case Success(token) => Success(NamePrefix(build, md.component) + token)
  }

  /** `uct_rkey_unpack`: in debug-data builds the name prefix is compared with
      the component's name when parameters are checked, and skipped; the driver
      unpacks what follows. A mismatch is rejected before the driver is asked. */
  function RkeyUnpack(build: BuildConfig, component: Component, buffer: seq<byte>,
                      unpack: seq<byte> -> Result<RkeyBundle>): (r: Result<RkeyBundle>)
    requires build.debugData ==> |buffer| >= COMPONENT_NAME_MAX
    ensures (build.debugData && build.paramsCheck && !StrnEq(buffer, component.name, COMPONENT_NAME_MAX))
            ==> r == Failure(ErrInvalidParam)
    ensures (build.debugData && (!build.paramsCheck || StrnEq(buffer, component.name, COMPONENT_NAME_MAX)))
            ==> r == unpack(buffer[COMPONENT_NAME_MAX..])
    ensures !build.debugData ==> r == unpack(buffer)
  {
    if build.debugData then
      if build.paramsCheck && !StrnEq(buffer, component.name, COMPONENT_NAME_MAX) then
        Failure(ErrInvalidParam)
      else
        unpack(buffer[COMPONENT_NAME_MAX..])
    else
      unpack(buffer)
  }

  /** A key packed by an MD passes the check when it is unpacked against that
      MD's component, and the component's driver receives exactly the bytes the
      MD's driver packed, in every build. */
  lemma RkeyRoundTrip(build: BuildConfig, md: Md, memh: MemHandle,
                      unpack: seq<byte> -> Result<RkeyBundle>)
    requires MkeyPack(build, md, memh).Success?
    ensures build.debugData ==> |MkeyPack(build, md, memh).value| >= COMPONENT_NAME_MAX
    ensures RkeyUnpack(build, md.component, MkeyPack(build, md, memh).value, unpack)
            == unpack(md.ops.mkeyPack(memh).value)
  {
    var packed := MkeyPack(build, md, memh).value;
    if build.debugData {
      StrnEqMeaning(packed, md.component.name, COMPONENT_NAME_MAX);
      assert md.component.name[..COMPONENT_NAME_MAX] == md.component.name;
    }
  }

  /** With both checks built in, a key packed by an MD of one component is
      rejected with `UCS_ERR_INVALID_PARAM` by any component with a different
      (padded) name, without its driver being asked. */
  lemma ForeignRkeyRejected(build: BuildConfig, md: Md, memh: MemHandle, other: Component,
                            unpack: seq<byte> -> Result<RkeyBundle>)
    requires build.debugData && build.paramsCheck
    requires MkeyPack(build, md, memh).Success?
    requires Padded(md.component.name) && Padded(other.name)
    requires other.name != md.component.name
    ensures |MkeyPack(build, md, memh).value| >= COMPONENT_NAME_MAX
    ensures RkeyUnpack(build, other, MkeyPack(build, md, memh).value, unpack) == Failure(ErrInvalidParam)
  {
    var packed := MkeyPack(build, md, memh).value;
    PaddedNamesMatchIffEqual(packed, other.name);
  }

  /** The packed size `uct_md_query` reports matches what `uct_md_mkey_pack`
      produces: when the driver reports its own token size, the name prefix is
      accounted for exactly (short of `size_t` overflow). */
  lemma PackedSizeMatchesQuery(build: BuildConfig, md: Md, memh: MemHandle)
    requires md.ops.query.Success? && MkeyPack(build, md, memh).Success?
    requires |md.ops.mkeyPack(memh).value| == md.ops.query.value.rkeyPackedSize
    requires md.ops.query.value.rkeyPackedSize + COMPONENT_NAME_MAX < SIZE_T_MODULUS
    ensures |MkeyPack(build, md, memh).value| == MemoryDomain.MdQuery(build, md).value.rkeyPackedSize
    ensures MemoryDomain.MdQuery(build, md).value.componentName == md.component.name
  {
  }

  /** The purpose of the component check in `uct_md_open`: an MD opened through
      a component reports that component's name from `uct_md_query`, and every
      key it packs passes that component's unpack check, with the driver
      receiving exactly the packed token. */
  lemma OpenedMdSpeaksForItsComponent(build: BuildConfig, component: Component, mdName: string,
                                      config: ConfigBundle.ConfigData,
                                      open: (string, ConfigBundle.ConfigData) -> Result<Md>,
                                      memh: MemHandle, unpack: seq<byte> -> Result<RkeyBundle>)
    requires open(mdName, config).Success? ==> open(mdName, config).value.component == component
    requires MemoryDomain.MdOpen(component, mdName, config, open).Success?
    ensures var md := MemoryDomain.MdOpen(component, mdName, config, open).value;
            && (md.ops.query.Success? ==> MemoryDomain.MdQuery(build, md).value.componentName == component.name)
            && (MkeyPack(build, md, memh).Success? ==>
                  && (build.debugData ==> |MkeyPack(build, md, memh).value| >= COMPONENT_NAME_MAX)
                  && RkeyUnpack(build, component, MkeyPack(build, md, memh).value, unpack)
                     == unpack(md.ops.mkeyPack(memh).value))
  {
    var md := MemoryDomain.MdOpen(component, mdName, config, open).value;
    if MkeyPack(build, md, memh).Success? {
      RkeyRoundTrip(build, md, memh, unpack);
    }
  }
}

=== FILE: transport_lookup.dfy ===
/**
  Transport selection on a memory domain (`uct_find_tl_on_md`): a scan of the
  component's transport list in registration order.
 */
module TransportLookup {
  import opened UcsStatus
  import opened UctTypes

  /** The scan's test for one entry. With a name it is a name comparison; with
      no name it looks at the MD's flags only, never at the entry itself. */
  predicate Selects(tl: TlComponent, mdFlags: bv64, tlName: Option<string>) {
    match tlName
    case Some(name) => name == tl.name
    case None => mdFlags & MD_FLAG_SOCKADDR != 0
  }

  /** `uct_find_tl_on_md`: the first registered transport the test selects, or
      NULL when there is none. */
  function FindTl(tlList: seq<TlComponent>, mdFlags: bv64, tlName: Option<string>)
    : (r: Option<TlComponent>)
    ensures r.None? <==> forall i :: 0 <= i < |tlList| ==> !Selects(tlList[i], mdFlags, tlName)
    ensures r.Some? ==> exists i :: 0 <= i < |tlList| && tlList[i] == r.value
                                    && Selects(tlList[i], mdFlags, tlName)
                                    && forall j :: 0 <= j < i ==> !Selects(tlList[j], mdFlags, tlName)
  {
    if |tlList| == 0 then None
    else if Selects(tlList[0], mdFlags, tlName) then Some(tlList[0])
    else
      var r := FindTl(tlList[1..], mdFlags, tlName);
      assert forall i :: 1 <= i < |tlList| ==> tlList[i] == tlList[1..][i - 1];
      r
  }

  /** Whatever the lookup returns is one of the component's registered
      transports, so a lookup never crosses into another component's list. */
  lemma FindTlReturnsRegistered(component: Component, mdFlags: bv64, tlName: Option<string>)
    ensures FindTl(component.tlList, mdFlags, tlName).Some? ==>
              FindTl(component.tlList, mdFlags, tlName).value in component.tlList
  {
  }

  /** With a name, the result is the first entry carrying that name, whatever
      the MD's flags say. */
  lemma {:induction false} FindTlByName(tlList: seq<TlComponent>, mdFlags: bv64, name: string)
    ensures FindTl(tlList, mdFlags, Some(name)) == FindTl(tlList, 0, Some(name))
    ensures FindTl(tlList, mdFlags, Some(name)).Some? ==>
              FindTl(tlList, mdFlags, Some(name)).value.name == name
    ensures FindTl(tlList, mdFlags, Some(name)).None? <==>
              forall i :: 0 <= i < |tlList| ==> tlList[i].name != name
  {
    if |tlList| > 0 && tlList[0].name != name {
      FindTlByName(tlList[1..], mdFlags, name);
    }
  }

  /** With no name, the result is the first registered transport when the MD
      advertises sockaddr support and NULL otherwise: the transports' own
      capabilities play no part. */
  lemma FindTlWithoutName(tlList: seq<TlComponent>, mdFlags: bv64)
    ensures FindTl(tlList, mdFlags, None) ==
              if |tlList| > 0 && mdFlags & MD_FLAG_SOCKADDR != 0 then Some(tlList[0]) else None
  {
  }
}

=== FILE: ucs_status.dfy ===
/**
  Status codes, failure-carrying results and the machine-level value types
  (bytes, `size_t`) that the memory-domain layer is written in terms of.
 */
module UcsStatus {

  /** The status taxonomy of `ucs_status_t` as far as this layer tells codes
      apart; `ErrDriver` stands for any other code a driver passes back. */
  datatype Status =
    | Ok
    | ErrNoMemory
    | ErrInvalidParam
    | ErrNoDevice
    | ErrDriver(code: int)

  /** A status other than `UCS_OK`: what every failure path reports. */
  type ErrStatus = s: Status | !s.Ok? witness ErrNoMemory

  /** A C pointer that may be NULL (`None`), or points at a value (`Some`). */
  datatype Option<+T> = None | Some(value: T)

  /** A status-returning call together with what it writes to its out-parameter:
      the value is only meaningful on `Success`. */
  datatype Result<+T> = Success(value: T) | Failure(status: ErrStatus) {

    /** The `ucs_status_t` the C function returns. */
    function StatusOf(): Status {
      if Success? then Ok else status
    }
  }

  /** A dynamically allocated array handed to a caller as a pointer and a count. */
  datatype Listing<+T> = Listing(buffer: Option<seq<T>>, count: nat) {

    /** A NULL pointer exactly when the count is zero, otherwise a buffer of
        `count` entries: never a live pointer with a zero count. */
    predicate WellFormed() {
      && (buffer.None? <==> count == 0)
      && (buffer.Some? ==> |buffer.value| == count)
    }

    /** The entries the caller may read. */
    function Items(): seq<T> {
      if buffer.Some? then buffer.value else []
    }
  }

  /** An octet, as C's `char`/`uint8_t` stores it. */
  type byte = x: int | 0 <= x < 256

  const SIZE_T_MODULUS: nat := 0x1_0000_0000_0000_0000

  /** A 64-bit `size_t`. */
  type SizeT = x: nat | x < SIZE_T_MODULUS

  /** `a + b` on `size_t`, wrapping around as unsigned C arithmetic does. */
  function AddSizeT(a: SizeT, b: SizeT): (r: SizeT)
    ensures a + b < SIZE_T_MODULUS ==> r == a + b
    ensures a + b >= SIZE_T_MODULUS ==> r == a + b - SIZE_T_MODULUS
  {
    (a + b) % SIZE_T_MODULUS
  }
}

=== FILE: uct_types.dfy ===
/**
  The entities of the UCT memory-domain layer: components and the transports
  registered under them, opened memory domains with their driver operation
  table, the attributes an MD reports and the resources discovery returns.

  Driver behaviour is not part of this layer; every `ops->...` entry is a
  function-typed field whose results the model takes as given.
 */
module UctTypes {
  import opened UcsStatus

  /** `UCT_MD_COMPONENT_NAME_MAX`: width of the fixed component-name field and
      of the name prefix of a packed rkey. */
  const COMPONENT_NAME_MAX: nat := 8

  /** `UCT_MD_NAME_MAX`: width of the name field of an MD resource. */
  const MD_NAME_MAX: nat := 16

  /** `UCT_MD_FLAG_SOCKADDR` in the MD capability flags. */
  const MD_FLAG_SOCKADDR: bv64 := 0x80

  /** The C byte that terminates a string. */
  const NUL: byte := 0

  /** A component's `name` field: exactly `COMPONENT_NAME_MAX` bytes, holding
      the name followed by NUL padding (or filling the field with no NUL). */
  type ComponentName = s: seq<byte> | |s| == COMPONENT_NAME_MAX
    witness seq(COMPONENT_NAME_MAX, _ => NUL)

  /** An options schema (`ucs_config_field_t[]`), identified by its option names;
      its contents only matter to the configuration parser. */
  datatype ConfigTable = ConfigTable(options: seq<string>)

  /** A transport (TL) component: its name and interface configuration schema. */
  datatype TlComponent = TlComponent(
    name: string,
    ifaceConfigTable: ConfigTable,
    ifaceConfigSize: nat,
    cfgPrefix: string)

  /** An MD component: name, MD configuration schema and the transports
      registered under it, in registration order. */
  datatype Component = Component(
    name: ComponentName,
    mdConfigTable: ConfigTable,
    mdConfigSize: nat,
    cfgPrefix: string,
    tlList: seq<TlComponent>)

  /** One transport resource (`uct_tl_resource_desc_t`). */
  datatype TlResource = TlResource(tlName: string, devName: string)

  /** One MD resource (`uct_md_resource_desc_t`): an `MD_NAME_MAX`-byte name field. */
  datatype MdResource = MdResource(mdName: seq<byte>)

  /** The attributes `uct_md_query` reports (`uct_md_attr_t`), restricted to the
      fields this layer reads or writes. */
  datatype MdAttr = MdAttr(capFlags: bv64, rkeyPackedSize: SizeT, componentName: seq<byte>)

  /** A driver-defined memory handle (`uct_mem_h`). */
  datatype MemHandle = MemHandle(id: nat)

  /** What a driver's `mem_alloc` writes back through its in/out arguments: the
      (possibly rounded) length, the address and the handle. */
  datatype Allocation = Allocation(length: SizeT, address: nat, memh: MemHandle)

  /** The driver operation table of an opened MD (`uct_md_ops_t`). Addresses are
      numbers with 0 standing for NULL. `memAlloc` receives the requested length
      and the caller's address hint, both in/out in C. `isHugetlb` is the one
      optional entry. */
  datatype MdOps = MdOps(
    query: Result<MdAttr>,
    memAlloc: (SizeT, nat, bv32, string) -> Result<Allocation>,
    memAdvise: (MemHandle, nat, SizeT, nat) -> Status,
    memReg: (nat, SizeT, bv32) -> Result<MemHandle>,
    mkeyPack: MemHandle -> Result<seq<byte>>,
    isHugetlb: Option<MemHandle -> int>)

  /** An opened memory domain: the component it came from and its operations. */
  datatype Md = Md(component: Component, ops: MdOps)

  /** The two build flags the layer's behaviour depends on. */
  datatype BuildConfig = BuildConfig(
    debugData: bool,    // ENABLE_DEBUG_DATA
    paramsCheck: bool)  // ENABLE_PARAMS_CHECK

  /** The bytes of a fixed-width C string field before its first NUL (the whole
      field when it holds none). */
  function CString(s: seq<byte>): (r: seq<byte>)
    ensures |r| <= |s| && r == s[..|r|]
    ensures NUL !in r
    ensures |r| < |s| ==> s[|r|] == NUL
  {
    if |s| == 0 || s[0] == NUL then [] else [s[0]] + CString(s[1..])
  }
}
